=== FILE: README.md ===
# Common form schemas

A model of the shared form-validation rules of the web application, found in
`apps/web/src/lib/schemas/common-schemas.ts`:

- `requiredStringSchema` — a string, trimmed, with at least one character;
- `emailSchema` — a required string of at most 100 characters that is an
  email address;
- `passwordSchema` — a required string of 8 to 100 characters;
- `nameSchema` — a required string of at most 50 characters;
- `createPasswordConfirmationRefine` — wraps an object schema so that the
  parse fails when `password` and `confirmPassword` differ.

The rules are built from the zod library. The model gives the library
behaviour they rely on in Dafny's terms:

- the type test on `z.string()`, which aborts the parse;
- the `trim`/`min`/`max`/`email` check chain, which keeps running after a
  failure and collects one issue per failed check;
- `z.object`, which parses every field, collects all issues under their keys
  and keeps only the shape's keys;
- `refine`, which runs only when the inner parse was not aborted and adds one
  issue at its `path`.

The modules are:

- `JsString` — `String.prototype.trim` over the ECMAScript white-space and
  line-terminator characters, characterised as the unique slice between the
  first and last non-white characters.
- `Values` — the JavaScript values a parse can be handed, the issues it
  reports, and the three ways a parse can end: valid, dirty (issues, but
  parsing went on) or aborted.
- `StringSchemas` — `z.string()` with a chain of checks.
- `ObjectSchemas` — `z.object` over string fields.
- `CommonSchemas` — the four rules, their messages, and the confirmation
  refinement.
- `SchemaCases` — the concrete inputs the rules are expected to accept or
  reject, derived from the general rules.

The email pattern is zod's own regular expression. It is a parameter
`isEmail: string -> bool` of every parse, and statements about addresses say
what they assume of it.

## Model

| member | source | states |
|---|---|---|
| JsString.IsWhiteSpace | apps/web/src/lib/schemas/common-schemas.ts:11 | no contract of its own: the white-space and line-terminator characters that trim removes; TrimIsTrimmedSlice and TrimmedSliceIsUnique state what trim does with them |
| JsString.TrimStart | apps/web/src/lib/schemas/common-schemas.ts:11 | the result is a suffix of the input that starts with a non-white character (or is empty), and everything dropped is white space |
| JsString.TrimEnd | apps/web/src/lib/schemas/common-schemas.ts:11 | the result is a prefix of the input that ends with a non-white character (or is empty), and everything dropped is white space |
| JsString.Trim | apps/web/src/lib/schemas/common-schemas.ts:11 | the trimmed string is no longer than the input, has no white space at either end, and is empty exactly when the input is all white space |
| JsString.TrimIsTrimmedSlice | apps/web/src/lib/schemas/common-schemas.ts:11 | trim returns the slice of the input between its first and last non-white characters, with only white space outside it |
| JsString.TrimmedSliceIsUnique | apps/web/src/lib/schemas/common-schemas.ts:11 | any slice with non-white ends and only white space outside it is exactly what trim returns |
| JsString.TrimIdempotent | apps/web/src/lib/schemas/common-schemas.ts:11 | trimming twice gives the same string as trimming once |
| JsString.TrimFixedPoints | apps/web/src/lib/schemas/common-schemas.ts:11 | trim leaves a string unchanged exactly when neither end is white space |
| Values.TypeName | apps/frontend/src/lib/schemas/__tests__/common-schemas.test.ts:27-34 | no contract of its own: the type name zod uses in its messages for each kind of value; NonStringCases pins `null` and `number` |
| Values.Property | apps/web/src/lib/schemas/common-schemas.ts:33 | no contract of its own: the property read `data.password`, with a missing key read as `undefined`; ObjectSchemas.FieldOutcome and ObjectSchemas.AbortedIff state what a missing or non-string property does to the parse |
| Values.ToResult | apps/frontend/src/lib/schemas/__tests__/common-schemas.test.ts:19-25 | `parse` returns a value exactly when the outcome is valid, returns that outcome's value, and otherwise throws exactly the issues the outcome reported |
| Values.InvalidTypeMessage | apps/frontend/src/lib/schemas/__tests__/common-schemas.test.ts:27-34 | the type message is "Required" exactly for `undefined`; for every other value it starts with "Expected " and ends with the name of the received type |
| Values.UnderKey | apps/frontend/src/lib/schemas/__tests__/common-schemas.test.ts:183-200 | a field's issues keep their number, order and messages, and each path gains the field's key in front |
| StringSchemas.StringSchema.Then | apps/web/src/lib/schemas/common-schemas.ts:15-27 | chaining a check keeps every earlier check in place and adds the new one last; ChainedChecks spells out the chains this builds |
| StringSchemas.CheckIssue | apps/web/src/lib/schemas/common-schemas.ts:12 | a check reports an issue exactly when it rejects the current value; trim never reports |
| StringSchemas.RunChecks | apps/web/src/lib/schemas/common-schemas.ts:9-27 | no contract of its own: zod's ordered check loop, with trim rewriting the value for later checks; RunTrimFree and TrimsFirstOutcome state what it computes |
| StringSchemas.FailedChecks | apps/web/src/lib/schemas/common-schemas.ts:15-17 | the chain reports nothing exactly when every check accepts the value, no more issues than checks, all at the value itself |
| StringSchemas.RunTrimFree | apps/web/src/lib/schemas/common-schemas.ts:20-22 | a chain without trim keeps the value and reports the checks that reject it, in order: a failing check does not stop later ones |
| StringSchemas.ParseOutcome | apps/web/src/lib/schemas/common-schemas.ts:10 | a non-string is aborted with the single invalid-type issue and no checks run; a failed string parse always carries an issue |
| StringSchemas.Parse | apps/web/src/lib/schemas/common-schemas.ts:9-10 | a thrown error always carries at least one issue, and a non-string throws exactly the one invalid-type issue |
| StringSchemas.TrimsFirstOutcome | apps/web/src/lib/schemas/common-schemas.ts:9-12 | a trim-first chain on a string ends on the trimmed string and reports exactly the later checks that reject it |
| StringSchemas.TrimsFirstAccepts | apps/web/src/lib/schemas/common-schemas.ts:9-12 | a trim-first schema accepts a string exactly when every check accepts its trimmed form, and returns that form |
| StringSchemas.PassesAfterTrim | apps/web/src/lib/schemas/common-schemas.ts:11-12 | a chain starting with trim accepts a value exactly when the checks after the trim report nothing |
| StringSchemas.TrimChain | apps/web/src/lib/schemas/common-schemas.ts:9-27 | for trim followed by up to three checks: the issues of each rejecting check in chain order, success exactly when there are none, and the trimmed value on success |
| StringSchemas.TrimInvariant | apps/web/src/lib/schemas/common-schemas.ts:11 | surrounding white space changes neither the value nor the issues of a trim-first schema |
| StringSchemas.ParseIdempotent | apps/web/src/lib/schemas/common-schemas.ts:9-12 | parsing an accepted value again accepts it unchanged |
| StringSchemas.AcceptedUntrimmedIsIdentity | apps/frontend/src/lib/schemas/__tests__/common-schemas.test.ts:13-17 | an accepted string with nothing to trim is returned as it was given |
| ObjectSchemas.FieldOutcome | apps/frontend/src/lib/schemas/__tests__/common-schemas.test.ts:143-147 | a failed field parse always carries an issue, and a field aborts exactly when its property (undefined when missing) is not a string |
| ObjectSchemas.FieldsOutcome | apps/frontend/src/lib/schemas/__tests__/common-schemas.test.ts:143-147 | merging the fields' parses never yields a failed result without an issue; FieldsIssuesExactly states its issue list exactly |
| ObjectSchemas.ParseOutcome | apps/frontend/src/lib/schemas/__tests__/common-schemas.test.ts:143-147 | a failed object parse, aborted or not, always carries at least one issue |
| ObjectSchemas.Parse | apps/frontend/src/lib/schemas/__tests__/common-schemas.test.ts:143-147 | a thrown error always carries at least one issue, and a non-object throws exactly the one invalid-type issue |
| ObjectSchemas.FieldsAbortedIff | apps/frontend/src/lib/schemas/__tests__/common-schemas.test.ts:143-147 | the object parse is aborted exactly when some field's parse is |
| ObjectSchemas.FieldsValidIff | apps/frontend/src/lib/schemas/__tests__/common-schemas.test.ts:143-147 | the object parse is valid exactly when every field's parse is |
| ObjectSchemas.FieldsValue | apps/frontend/src/lib/schemas/__tests__/common-schemas.test.ts:143-147 | unless aborted, the parsed object has exactly the shape's keys, each holding its field's parsed string |
| ObjectSchemas.FieldsCollect | apps/frontend/src/lib/schemas/__tests__/common-schemas.test.ts:183-200 | every issue of every field appears among the object's issues, under that field's key |
| ObjectSchemas.FieldsIssuesUnderKeys | apps/frontend/src/lib/schemas/__tests__/common-schemas.test.ts:183-200 | every issue of the object sits under one of the shape's keys |
| ObjectSchemas.FieldsIssuesExactly | apps/frontend/src/lib/schemas/__tests__/common-schemas.test.ts:183-200 | the object's issues are exactly each field's own issues, each once and under its field's key, field after field in shape order |
| ObjectSchemas.ParseAccepts | apps/frontend/src/lib/schemas/__tests__/common-schemas.test.ts:151-160 | an object parses exactly when every field does, and the result holds precisely the shape's keys with their parsed strings |
| ObjectSchemas.FieldIssuesCollected | apps/frontend/src/lib/schemas/__tests__/common-schemas.test.ts:183-200 | a field issue makes the object parse throw, with that issue under the field's key |
| ObjectSchemas.IssuesBelongToFields | apps/frontend/src/lib/schemas/__tests__/common-schemas.test.ts:183-200 | for an object input the thrown issues are exactly the fields' own issues under their keys, in shape order; so every thrown issue is some field's issue under that field's key |
| ObjectSchemas.AbortedIff | apps/web/src/lib/schemas/common-schemas.ts:30-33 | the object parse is aborted, so the refinement cannot run, exactly when the input is not an object or some field is not a string |
| CommonSchemas.RequiredString | apps/web/src/lib/schemas/common-schemas.ts:9-12 | no contract of its own: `z.string().trim().min(1)`; ChainedChecks spells out its chain and RequiredStringRule states what it accepts |
| CommonSchemas.EmailSchema | apps/web/src/lib/schemas/common-schemas.ts:15-17 | no contract of its own: the required string followed by `max(100)` and `email()`; ChainedChecks and EmailRule state it |
| CommonSchemas.PasswordSchema | apps/web/src/lib/schemas/common-schemas.ts:20-22 | no contract of its own: the required string followed by `min(8)` and `max(100)`; ChainedChecks and PasswordRule state it |
| CommonSchemas.NameSchema | apps/web/src/lib/schemas/common-schemas.ts:25-27 | no contract of its own: the required string followed by `max(50)`; ChainedChecks and NameRule state it |
| CommonSchemas.ChainedChecks | apps/web/src/lib/schemas/common-schemas.ts:9-27 | each rule is trim, the required minimum of 1, then its own checks in the order they were chained |
| CommonSchemas.CommonSchemasTrimFirst | apps/web/src/lib/schemas/common-schemas.ts:9-27 | every rule trims first and trims only once |
| CommonSchemas.RequiredStringRule | apps/web/src/lib/schemas/common-schemas.ts:9-12 | accepted exactly when the input is a string whose trimmed form is non-empty, returning the trimmed form; otherwise the required message |
| CommonSchemas.EmailRule | apps/web/src/lib/schemas/common-schemas.ts:15-17 | accepted exactly when the trimmed string has 1 to 100 characters and is an address; each failed condition adds its own message, in chain order |
| CommonSchemas.PasswordRule | apps/web/src/lib/schemas/common-schemas.ts:20-22 | accepted exactly when the trimmed string has 8 to 100 characters; each failed bound adds its own message, in chain order |
| CommonSchemas.NameRule | apps/web/src/lib/schemas/common-schemas.ts:25-27 | accepted exactly when the trimmed string has 1 to 50 characters; each failed bound adds its own message |
| CommonSchemas.PasswordsMatch | apps/web/src/lib/schemas/common-schemas.ts:33 | no contract of its own: `data.password === data.confirmPassword` on the parsed object; ConfirmedAccepts and ConfirmedIssues state its role |
| CommonSchemas.RefinePasswordConfirmation | apps/web/src/lib/schemas/common-schemas.ts:30-37 | the refinement keeps every failed parse carrying at least one issue |
| CommonSchemas.ParseConfirmed | apps/web/src/lib/schemas/common-schemas.ts:30-37 | a thrown error always carries at least one issue, and a non-object throws the object type issue with no refinement run |
| CommonSchemas.ConfirmedAccepts | apps/web/src/lib/schemas/common-schemas.ts:33 | the refined schema accepts exactly what the object schema accepts with equal passwords, and returns the object schema's value |
| CommonSchemas.ConfirmedIssues | apps/web/src/lib/schemas/common-schemas.ts:33-36 | the object schema's issues come first and unchanged; the mismatch issue follows exactly when the parse was not aborted and the passwords differ |
| CommonSchemas.MismatchAlone | apps/web/src/lib/schemas/common-schemas.ts:33-36 | with otherwise valid fields, a mismatch throws exactly one issue, at `confirmPassword`, with the mismatch message |
| CommonSchemas.FieldIssueAndMismatch | apps/web/src/lib/schemas/common-schemas.ts:33-36 | a field issue and a mismatch are both reported, so there is more than one issue |
| SchemaCases.Repeat | apps/frontend/src/lib/schemas/__tests__/common-schemas.test.ts:103-115 | `c.repeat(n)` has exactly n characters, each of them c |
| SchemaCases.RequiredWordCase | apps/frontend/src/lib/schemas/__tests__/common-schemas.test.ts:13-17 | a non-empty string with nothing to trim is accepted unchanged |
| SchemaCases.RequiredBlankCase | apps/frontend/src/lib/schemas/__tests__/common-schemas.test.ts:19-25 | an empty or blank string is rejected with the required message alone |
| SchemaCases.NonStringCases | apps/frontend/src/lib/schemas/__tests__/common-schemas.test.ts:27-34 | `null`, `undefined` and `123` are rejected, each with zod's invalid-type message |
| SchemaCases.PasswordCases | apps/frontend/src/lib/schemas/__tests__/common-schemas.test.ts:80-101 | untrimmed passwords of 8 to 100 characters are returned unchanged; shorter or longer ones get exactly the one matching message |
| SchemaCases.EmptyPasswordCase | apps/frontend/src/lib/schemas/__tests__/common-schemas.test.ts:108-110 | the empty password gets both the required and the too-short message |
| SchemaCases.PasswordRunCases | apps/frontend/src/lib/schemas/__tests__/common-schemas.test.ts:103-115 | a run of n non-white characters is a valid password exactly when 8 <= n <= 100 |
| SchemaCases.NameCases | apps/frontend/src/lib/schemas/__tests__/common-schemas.test.ts:119-126 | untrimmed names of 1 to 50 characters are returned unchanged; longer ones get the too-long message alone |
| SchemaCases.EmptyNameCase | apps/frontend/src/lib/schemas/__tests__/common-schemas.test.ts:133-135 | the empty name gets the required message alone |
| SchemaCases.NameRunCases | apps/frontend/src/lib/schemas/__tests__/common-schemas.test.ts:128-140 | a run of n non-white characters is a valid name exactly when 1 <= n <= 50 |
| SchemaCases.EmailTooLongCase | apps/frontend/src/lib/schemas/__tests__/common-schemas.test.ts:69-72 | an address of more than 100 characters is rejected with the too-long message whatever the pattern says |
| SchemaCases.EmailShapeCases | apps/frontend/src/lib/schemas/__tests__/common-schemas.test.ts:38-63 | an untrimmed address of at most 100 characters is returned unchanged when the pattern accepts it, and gets the invalid-address message alone otherwise |
| SchemaCases.EmptyEmailCase | apps/frontend/src/lib/schemas/__tests__/common-schemas.test.ts:65-67 | the empty string gets both the required and the invalid-address message |
| SchemaCases.FormFields | apps/frontend/src/lib/schemas/__tests__/common-schemas.test.ts:143-147 | the plain fields of the form parse to themselves, and the email field reports zod's default message exactly when the pattern rejects it |
| SchemaCases.MatchingConfirmationAccepted | apps/frontend/src/lib/schemas/__tests__/common-schemas.test.ts:151-160 | equal passwords and an accepted address give back the form as it was |
| SchemaCases.MismatchReportedAlone | apps/frontend/src/lib/schemas/__tests__/common-schemas.test.ts:162-181 | different passwords with an accepted address give exactly one issue, at `confirmPassword`, with the mismatch message |
| SchemaCases.InvalidEmailReported | apps/frontend/src/lib/schemas/__tests__/common-schemas.test.ts:183-225 | a rejected address is reported under `email`; with different passwords the mismatch is reported too, for more than one issue |

## Left out

- The email regular expression. It belongs to the zod library and is not
  part of this model, so every parse takes it as the parameter `isEmail`.
- String lengths. Dafny strings count Unicode scalar values; JavaScript's
  `length` and zod's `min`/`max` count UTF-16 code units. The two agree for
  every character in the Basic Multilingual Plane, which includes every
  input in the repository's own test cases. A character outside that plane counts 2
  in JavaScript and 1 in this model. A JavaScript string may also hold an
  unpaired UTF-16 surrogate, which a Dafny `char` cannot represent, so such
  strings are not modelled.
- Numbers. They are integers; only their type matters to the rules, so
  `NaN`, fractions and the like are not modelled.
- Type names. zod's finer type names (`nan`, `bigint`, `date`, `function`,
  …) are not distinguished; the model has undefined, null, boolean, number,
  string, array and object.
- Issue fields. Issues keep only their path and message. zod's issue
  codes, `minimum`/`maximum` fields and `fatal` flags are left out.
- zod version. The library behaviour follows zod 3, whose version the
  source does not pin. The messages for a value of the wrong type follow
  zod 3's default error map ("Required" for `undefined`, otherwise
  "Expected string, received …"), and `email()` without a message reports
  zod 3's "Invalid email". zod 4 words its defaults differently.
- Asynchronous parsing (`parseAsync`), `safeParse` and custom error maps are
  not modelled.
- `ObjectSchemas.ParseOutcome` models only object shapes whose fields are
  string schemas, which is what the confirmation refinement is used with.
  Nested objects, optional fields and passthrough or strict modes are left
  out.
- `CommonSchemas.PasswordsMatch` compares the parsed values structurally.
  JavaScript's `===` compares strings by content, which is what the rule
  applies it to; reference identity of objects is not modelled.
- The authentication controller and service are not modelled. The
  controller takes its input types `CreateUserInput` and `SignInUserInput`
  from its own schema modules; neither those modules nor the controller
  itself is part of this model. The service it calls is not part of this
  model either, and the controller's tests replace it with a mock.
- The authentication and user modules are dependency wiring with no
  validation logic. The authentication module registers the JWT secret and
  its 24-hour expiry; the user module registers the database module, the
  user controller and the user service.
- The home and sign-up pages are user interface. The sign-up page calls a
  server action that is not part of this model.
- The comment on the too-long address in the tests calls
  `'a'.repeat(90) + '@example.com'` 101 characters; it is 102. The input is
  rejected either way, as `SchemaCases.EmailTooLongCase` states for every
  address longer than 100.

=== FILE: common_schemas.dfy ===
/** The shared form rules: a required string, an email, a password, a name,
    and the password-confirmation refinement layered on an object schema.
    The email pattern is zod's and is not part of this model: every rule
    takes it as the parameter `isEmail`. */
module CommonSchemas {
  import JsString
  import opened Values
  import opened StringSchemas
  import ObjectSchemas

  const RequiredMessage := "この項目は必須です"
  const EmailTooLongMessage := "メールアドレスは100文字以下で入力してください"
  const EmailInvalidMessage := "有効なメールアドレスを入力してください"
  const PasswordTooShortMessage := "パスワードは8文字以上で入力してください"
  const PasswordTooLongMessage := "パスワードは100文字以下で入力してください"
  const NameTooLongMessage := "名前は50文字以下で入力してください"
  const MismatchMessage := "パスワードと確認用パスワードが一致しません"

  /** A string, trimmed, with at least one character left. */
  const RequiredString := StringSchema([TrimCheck, Min(1, RequiredMessage)])

  /** A required string of at most 100 characters that looks like an address. */
  const EmailSchema := RequiredString.Then(Max(100, EmailTooLongMessage)).Then(Email(EmailInvalidMessage))

  /** A required string of 8 to 100 characters. */
  const PasswordSchema := RequiredString.Then(Min(8, PasswordTooShortMessage)).Then(Max(100, PasswordTooLongMessage))

  /** A required string of at most 50 characters. */
  const NameSchema := RequiredString.Then(Max(50, NameTooLongMessage))

  /** The chains spelled out: each rule is trim, the required minimum,
      then its own checks in the order they were chained. */
  lemma ChainedChecks()
    ensures RequiredString.checks == [TrimCheck, Min(1, RequiredMessage)]
    ensures EmailSchema.checks
         == [TrimCheck, Min(1, RequiredMessage), Max(100, EmailTooLongMessage), Email(EmailInvalidMessage)]
    ensures PasswordSchema.checks
         == [TrimCheck, Min(1, RequiredMessage), Min(8, PasswordTooShortMessage), Max(100, PasswordTooLongMessage)]
    ensures NameSchema.checks == [TrimCheck, Min(1, RequiredMessage), Max(50, NameTooLongMessage)]
  {
  }

  lemma CommonSchemasTrimFirst()
    ensures TrimsFirst(RequiredString) && TrimsFirst(EmailSchema)
    ensures TrimsFirst(PasswordSchema) && TrimsFirst(NameSchema)
  {
    ChainedChecks();
  }

  /** The required-string rule: only strings pass the type test, and a string
      is accepted exactly when trimming leaves something, giving the trimmed
      string; otherwise the one issue is the required message. */
  lemma RequiredStringRule(input: Value, isEmail: string -> bool)
    ensures Parse(RequiredString, input, isEmail).Ok?
        <==> input.Str? && |JsString.Trim(input.s)| >= 1
    ensures Parse(RequiredString, input, isEmail).Ok? ==>
      Parse(RequiredString, input, isEmail).value == JsString.Trim(input.s)
    ensures input.Str? ==>
      ParseOutcome(RequiredString, input, isEmail).Reported()
        == IssueWhen(|JsString.Trim(input.s)| < 1, RequiredMessage)
  {
    ChainedChecks();
    var rest := RequiredString.checks[1..];
    assert RequiredString.checks == [TrimCheck] + rest && TrimFree(rest);
    TrimChain(RequiredString, rest, input, isEmail);
  }

  /** The email rule: accepted exactly when the trimmed string is non-empty,
      at most 100 characters and email-shaped; each failed condition adds its
      own issue, in chain order. */
  lemma EmailRule(input: Value, isEmail: string -> bool)
    ensures Parse(EmailSchema, input, isEmail).Ok?
        <==> input.Str? && 1 <= |JsString.Trim(input.s)| <= 100 && isEmail(JsString.Trim(input.s))
    ensures Parse(EmailSchema, input, isEmail).Ok? ==>
      Parse(EmailSchema, input, isEmail).value == JsString.Trim(input.s)
    ensures input.Str? ==>
      var t := JsString.Trim(input.s);
      ParseOutcome(EmailSchema, input, isEmail).Reported()
        == IssueWhen(|t| < 1, RequiredMessage)
         + IssueWhen(|t| > 100, EmailTooLongMessage)
         + IssueWhen(!isEmail(t), EmailInvalidMessage)
  {
    ChainedChecks();
    var rest := EmailSchema.checks[1..];
    assert EmailSchema.checks == [TrimCheck] + rest && TrimFree(rest);
    TrimChain(EmailSchema, rest, input, isEmail);
  }

  /** The password rule: accepted exactly when the trimmed string has 8 to
      100 characters. An empty password fails both minimums. */
  lemma PasswordRule(input: Value, isEmail: string -> bool)
    ensures Parse(PasswordSchema, input, isEmail).Ok?
        <==> input.Str? && 8 <= |JsString.Trim(input.s)| <= 100
    ensures Parse(PasswordSchema, input, isEmail).Ok? ==>
      Parse(PasswordSchema, input, isEmail).value == JsString.Trim(input.s)
    ensures input.Str? ==>
      var t := JsString.Trim(input.s);
      ParseOutcome(PasswordSchema, input, isEmail).Reported()
        == IssueWhen(|t| < 1, RequiredMessage)
         + IssueWhen(|t| < 8, PasswordTooShortMessage)
         + IssueWhen(|t| > 100, PasswordTooLongMessage)
  {
    ChainedChecks();
    var rest := PasswordSchema.checks[1..];
    assert PasswordSchema.checks == [TrimCheck] + rest && TrimFree(rest);
    TrimChain(PasswordSchema, rest, input, isEmail);
  }

  /** The name rule: accepted exactly when the trimmed string has 1 to 50
      characters. */
  lemma NameRule(input: Value, isEmail: string -> bool)
    ensures Parse(NameSchema, input, isEmail).Ok?
        <==> input.Str? && 1 <= |JsString.Trim(input.s)| <= 50
    ensures Parse(NameSchema, input, isEmail).Ok? ==>
      Parse(NameSchema, input, isEmail).value == JsString.Trim(input.s)
    ensures input.Str? ==>
      var t := JsString.Trim(input.s);
      ParseOutcome(NameSchema, input, isEmail).Reported()
        == IssueWhen(|t| < 1, RequiredMessage)
         + IssueWhen(|t| > 50, NameTooLongMessage)
  {
    ChainedChecks();
    var rest := NameSchema.checks[1..];
    assert NameSchema.checks == [TrimCheck] + rest && TrimFree(rest);
    TrimChain(NameSchema, rest, input, isEmail);
  }

  /** The issue the confirmation refinement reports. */
  const MismatchIssue := Issue(["confirmPassword"], MismatchMessage)

  /** `data.password === data.confirmPassword` on the parsed value. */
  predicate PasswordsMatch(v: Value) {
    Property(v, "password") == Property(v, "confirmPassword")
  }

  /** createPasswordConfirmationRefine: the refinement runs on the inner
      schema's value unless that parse was aborted, and a mismatch adds one
      issue at the confirmation field after the inner schema's own issues. */
  function RefinePasswordConfirmation(inner: Outcome<Value>): (o: Outcome<Value>)
    requires inner.WellFormed()
    ensures o.WellFormed()
  {
    match inner
    case Aborted(_) => inner
    case Valid(v) => if PasswordsMatch(v) then inner else Dirty(v, [MismatchIssue])
    case Dirty(v, issues) => if PasswordsMatch(v) then inner else Dirty(v, issues + [MismatchIssue])
  }

  /** `createPasswordConfirmationRefine(z.object(shape)).parse(input)`. */
  function ParseConfirmed(shape: seq<ObjectSchemas.Field>, input: Value, isEmail: string -> bool): (r: Result<Value>)
    ensures r.Err? ==> |r.issues| > 0
    ensures !input.Obj? ==> r == Err([Issue([], InvalidTypeMessage("object", input))])
  {
    ToResult(RefinePasswordConfirmation(ObjectSchemas.ParseOutcome(shape, input, isEmail)))
  }

  /** The refined schema accepts exactly what the object schema accepts with
      matching passwords, and returns the object schema's value. */
  lemma ConfirmedAccepts(shape: seq<ObjectSchemas.Field>, input: Value, isEmail: string -> bool)
    ensures ParseConfirmed(shape, input, isEmail).Ok?
        <==> ObjectSchemas.Parse(shape, input, isEmail).Ok? && PasswordsMatch(ObjectSchemas.Parse(shape, input, isEmail).value)
    ensures ParseConfirmed(shape, input, isEmail).Ok? ==>
      ParseConfirmed(shape, input, isEmail).value == ObjectSchemas.Parse(shape, input, isEmail).value
  {
  }

  /** The refinement never hides a field issue: the object schema's issues
      come first, unchanged, and at most the one mismatch issue follows; it
      follows exactly when the object parse was not aborted and the parsed
      passwords differ. */
  lemma ConfirmedIssues(shape: seq<ObjectSchemas.Field>, input: Value, isEmail: string -> bool)
    ensures var inner := ObjectSchemas.ParseOutcome(shape, input, isEmail);
      RefinePasswordConfirmation(inner).Reported()
        == inner.Reported() + (if !inner.Aborted? && !PasswordsMatch(inner.value) then [MismatchIssue] else [])
  {
  }

  /** A mismatch with otherwise valid fields is reported as exactly one issue,
      at the confirmation field, with the mismatch message. */
  lemma MismatchAlone(shape: seq<ObjectSchemas.Field>, input: Value, isEmail: string -> bool)
    requires ObjectSchemas.Parse(shape, input, isEmail).Ok?
    requires !PasswordsMatch(ObjectSchemas.Parse(shape, input, isEmail).value)
    ensures ParseConfirmed(shape, input, isEmail) == Err([Issue(["confirmPassword"], MismatchMessage)])
  {
  }

  /** A field issue and a mismatch are both reported: errors are collected
      across fields and the refinement, not cut off at the first. */
  lemma FieldIssueAndMismatch(shape: seq<ObjectSchemas.Field>, input: Value, isEmail: string -> bool, i: int)
    requires input.Obj? && 0 <= i < |shape|
    ensures
      var inner := ObjectSchemas.ParseOutcome(shape, input, isEmail);
      var own := ObjectSchemas.FieldOutcome(shape[i], input, isEmail).Reported();
      var refined := ParseConfirmed(shape, input, isEmail);
      !inner.Aborted? && !PasswordsMatch(inner.value) && |own| > 0 ==>
        && refined.Err?
        && |refined.issues| > 1
        && MismatchIssue in refined.issues
        && forall j :: 0 <= j < |own| ==> Issue([shape[i].0] + own[j].path, own[j].message) in refined.issues
  {
    var inner := ObjectSchemas.ParseOutcome(shape, input, isEmail);
    var own := ObjectSchemas.FieldOutcome(shape[i], input, isEmail).Reported();
    if !inner.Aborted? && !PasswordsMatch(inner.value) && |own| > 0 {
      forall j | 0 <= j < |own|
        ensures Issue([shape[i].0] + own[j].path, own[j].message) in inner.Reported()
      {
        ObjectSchemas.FieldIssuesCollected(shape, input, isEmail, i, j);
      }
      assert |inner.Reported()| > 0 by {
        ObjectSchemas.FieldIssuesCollected(shape, input, isEmail, i, 0);
      }
      ConfirmedIssues(shape, input, isEmail);
      assert ParseConfirmed(shape, input, isEmail).issues == inner.Reported() + [MismatchIssue];
    }
  }
}

=== FILE: js_string.dfy ===
/** The part of ECMAScript's String.prototype.trim that the form schemas rely on:
    strip white space and line terminators from both ends of a string.
    Characters are Unicode scalar values here; JavaScript counts UTF-16 code units,
    which agree for every string inside the Basic Multilingual Plane. */
module JsString {

  /** ECMAScript WhiteSpace (TAB, VT, FF, SP, NBSP, ZWNBSP and the Zs category)
      together with LineTerminator (LF, CR, LS, PS): exactly what trim removes. */
  predicate IsWhiteSpace(c: char) {
    || c == '\t' || c == '\U{000B}' || c == '\U{000C}' || c == ' '
    || c == '\U{00A0}' || c == '\U{FEFF}'
    || c == '\U{1680}' || ('\U{2000}' <= c <= '\U{200A}')
    || c == '\U{202F}' || c == '\U{205F}' || c == '\U{3000}'
    || c == '\n' || c == '\r' || c == '\U{2028}' || c == '\U{2029}'
  }

  predicate AllWhiteSpace(s: string) {
    forall i :: 0 <= i < |s| ==> IsWhiteSpace(s[i])
  }

  /** Neither end of `s` is white space: the strings trim leaves alone. */
  predicate NoOuterWhiteSpace(s: string) {
    |s| == 0 || (!IsWhiteSpace(s[0]) && !IsWhiteSpace(s[|s| - 1]))
  }

  /** Drops the white-space prefix: the result is the suffix of `s` that starts
      at its first non-white character. */
  function TrimStart(s: string): (r: string)
    ensures |r| <= |s| && r == s[|s| - |r|..]
    ensures |r| > 0 ==> !IsWhiteSpace(r[0])
    ensures AllWhiteSpace(s[..|s| - |r|])
  {
    if |s| > 0 && IsWhiteSpace(s[0]) then
      var r := TrimStart(s[1..]);
      assert s[1..][..|s[1..]| - |r|] == s[1..|s| - |r|];
      r
    else
      s
  }

  /** Drops the white-space suffix: the result is the prefix of `s` that ends
      at its last non-white character. */
  function TrimEnd(s: string): (r: string)
    ensures |r| <= |s| && r == s[..|r|]
    ensures |r| > 0 ==> !IsWhiteSpace(r[|r| - 1])
    ensures AllWhiteSpace(s[|r|..])
  {
    if |s| > 0 && IsWhiteSpace(s[|s| - 1]) then
      var r := TrimEnd(s[..|s| - 1]);
      assert s[..|s| - 1][|r|..] + [s[|s| - 1]] == s[|r|..];
      r
    else
      s
  }

  /** String.prototype.trim. */
  function Trim(s: string): (r: string)
    ensures |r| <= |s|
    ensures NoOuterWhiteSpace(r)
    ensures |r| == 0 <==> AllWhiteSpace(s)
  {
    TrimBothEnds(s);
    TrimEnd(TrimStart(s))
  }

  lemma TrimBothEnds(s: string)
    ensures NoOuterWhiteSpace(TrimEnd(TrimStart(s)))
    ensures |TrimEnd(TrimStart(s))| == 0 <==> AllWhiteSpace(s)
  {
    var t := TrimStart(s);
    var r := TrimEnd(t);
    if |r| > 0 {
      assert r[0] == t[0];
    }
    if |r| == 0 {
      assert |t| == 0;
      assert s[..|s|] == s;
    }
  }

  /** `r` is `s` with a white-space prefix and a white-space suffix removed and
      no white space left at either end: the independent statement of what trim returns. */
  predicate IsTrimmedSlice(s: string, lo: int, hi: int) {
    && 0 <= lo <= hi <= |s|
    && AllWhiteSpace(s[..lo])
    && AllWhiteSpace(s[hi..])
    && NoOuterWhiteSpace(s[lo..hi])
  }

  /** Trim returns a trimmed slice of its input ... */
  lemma TrimIsTrimmedSlice(s: string) returns (lo: int, hi: int)
    ensures IsTrimmedSlice(s, lo, hi)
    ensures Trim(s) == s[lo..hi]
  {
    var t := TrimStart(s);
    var r := Trim(s);
    lo := |s| - |t|;
    hi := lo + |r|;
    assert r == t[..|r|];
    assert t[..|r|] == s[lo..hi];
    forall i | 0 <= i < |s| - hi ensures IsWhiteSpace(s[hi..][i]) {
      assert s[hi..][i] == t[|r|..][i];
    }
  }

  /** ... and it is the only one: any split of `s` into white space, a
      non-white-ended middle and white space has Trim(s) as its middle. */
  lemma TrimmedSliceIsUnique(s: string, lo: int, hi: int)
    requires IsTrimmedSlice(s, lo, hi)
    ensures Trim(s) == s[lo..hi]
  {
    if lo == hi {
      WhiteSplit(s, lo);
      assert |Trim(s)| == 0;
    } else {
      var lo', hi' := TrimIsTrimmedSlice(s);
      SameSlice(s, lo, hi, lo', hi');
    }
  }

  /** Two trimmed slices of `s` with a non-empty middle have the same bounds. */
  lemma SameSlice(s: string, lo: int, hi: int, lo': int, hi': int)
    requires IsTrimmedSlice(s, lo, hi) && IsTrimmedSlice(s, lo', hi')
    requires lo < hi
    ensures lo == lo' && hi == hi'
  {
    assert !IsWhiteSpace(s[lo]) by {
      assert s[lo..hi][0] == s[lo];
    }
    if lo' == hi' {
      WhiteSplit(s, lo');
    }
    SameStart(s, lo, hi, lo', hi');
    SameStart(s, lo', hi', lo, hi);
    SameEnd(s, lo, hi, lo', hi');
    SameEnd(s, lo', hi', lo, hi);
  }

  lemma WhiteSplit(s: string, k: int)
    requires 0 <= k <= |s|
    requires AllWhiteSpace(s[..k]) && AllWhiteSpace(s[k..])
    ensures AllWhiteSpace(s)
  {
    forall i | 0 <= i < |s| ensures IsWhiteSpace(s[i]) {
      if i < k {
        assert s[..k][i] == s[i];
      } else {
        assert s[k..][i - k] == s[i];
      }
    }
  }

  lemma SameStart(s: string, lo: int, hi: int, lo': int, hi': int)
    requires IsTrimmedSlice(s, lo, hi) && IsTrimmedSlice(s, lo', hi')
    requires lo < hi && lo' < hi'
    ensures lo <= lo'
  {
    assert !IsWhiteSpace(s[lo']) by {
      assert s[lo'..hi'][0] == s[lo'];
    }
    assert forall i :: 0 <= i < lo ==> IsWhiteSpace(s[i]) by {
      forall i | 0 <= i < lo ensures IsWhiteSpace(s[i]) {
        assert s[..lo][i] == s[i];
      }
    }
  }

  lemma SameEnd(s: string, lo: int, hi: int, lo': int, hi': int)
    requires IsTrimmedSlice(s, lo, hi) && IsTrimmedSlice(s, lo', hi')
    requires lo < hi && lo' < hi'
    ensures hi <= hi'
  {
    assert !IsWhiteSpace(s[hi - 1]) by {
      assert s[lo..hi][hi - lo - 1] == s[hi - 1];
    }
    assert forall i :: hi' <= i < |s| ==> IsWhiteSpace(s[i]) by {
      forall i | hi' <= i < |s| ensures IsWhiteSpace(s[i]) {
        assert s[hi'..][i - hi'] == s[i];
      }
    }
  }

  /** Trimming twice is trimming once. */
  lemma {:induction false} TrimIdempotent(s: string)
    ensures Trim(Trim(s)) == Trim(s)
  {
    var r := Trim(s);
    assert IsTrimmedSlice(r, 0, |r|) by {
      assert r[..0] == [] && r[|r|..] == [] && r[0..|r|] == r;
    }
    TrimmedSliceIsUnique(r, 0, |r|);
  }

  /** Trim leaves a string unchanged exactly when neither end is white space. */
  lemma TrimFixedPoints(s: string)
    ensures Trim(s) == s <==> NoOuterWhiteSpace(s)
  {
    if NoOuterWhiteSpace(s) {
      assert IsTrimmedSlice(s, 0, |s|) by {
        assert s[..0] == [] && s[|s|..] == [] && s[0..|s|] == s;
      }
      TrimmedSliceIsUnique(s, 0, |s|);
    }
  }
}

=== FILE: object_schemas.dfy ===
/** zod's object schema over string fields: `z.object({ key: schema, ... })`.
    Every field of the shape is parsed, in shape order, from the property of
    the same name; issues from all fields are collected under their keys, and
    the parsed object keeps only the shape's keys. */
module ObjectSchemas {
  import opened Values
  import StringSchemas

  /** One entry of a shape: a key and the schema its property must satisfy. */
  type Field = (string, StringSchemas.StringSchema)

  /** The keys of an object literal are distinct. */
  predicate KeysDistinct(shape: seq<Field>) {
    forall i, j :: 0 <= i < j < |shape| ==> shape[i].0 != shape[j].0
  }

  function Keys(shape: seq<Field>): set<string> {
    set i | 0 <= i < |shape| :: shape[i].0
  }

  /** How the property named by `field` parses on its own. */
  function FieldOutcome(field: Field, input: Value, isEmail: string -> bool): (o: Outcome<string>)
    ensures o.WellFormed()
    ensures o.Aborted? <==> !Property(input, field.0).Str?
  {
    StringSchemas.ParseOutcome(field.1, Property(input, field.0), isEmail)
  }

  /** Parses every field of `shape` and merges the results: the object is
      aborted if some field is, and otherwise carries the parsed strings under
      the shape's keys; the issues are the fields' issues, in shape order. */
  function FieldsOutcome(shape: seq<Field>, input: Value, isEmail: string -> bool): (o: Outcome<map<string, Value>>)
    ensures o.WellFormed()
  {
    if |shape| == 0 then Valid(map[])
    else
      var key := shape[0].0;
      var head := FieldOutcome(shape[0], input, isEmail);
      var tail := FieldsOutcome(shape[1..], input, isEmail);
      var issues := UnderKey(key, head.Reported()) + tail.Reported();
      if head.Aborted? || tail.Aborted? then Aborted(issues)
      else
        var value := tail.value[key := Str(head.value)];
        if |issues| == 0 then Valid(value) else Dirty(value, issues)
  }

  lemma TailKeys(shape: seq<Field>)
    requires |shape| > 0
    ensures Keys(shape) == {shape[0].0} + Keys(shape[1..])
    ensures KeysDistinct(shape) ==> KeysDistinct(shape[1..])
    ensures KeysDistinct(shape) ==> shape[0].0 !in Keys(shape[1..])
  {
    forall k | k in Keys(shape) ensures k in {shape[0].0} + Keys(shape[1..]) {
      var i :| 0 <= i < |shape| && shape[i].0 == k;
      if i > 0 {
        assert shape[1..][i - 1] == shape[i];
      }
    }
    forall k | k in Keys(shape[1..]) ensures k in Keys(shape) && (KeysDistinct(shape) ==> k != shape[0].0) {
      var i :| 0 <= i < |shape[1..]| && shape[1..][i].0 == k;
      assert shape[i + 1] == shape[1..][i];
    }
    if KeysDistinct(shape) {
      forall i, j | 0 <= i < j < |shape| - 1 ensures shape[1..][i].0 != shape[1..][j].0 {
        assert shape[1..][i] == shape[i + 1] && shape[1..][j] == shape[j + 1];
      }
    }
  }

  /** The merged parse is aborted exactly when some field's parse is. */
  lemma {:induction false} FieldsAbortedIff(shape: seq<Field>, input: Value, isEmail: string -> bool)
    ensures FieldsOutcome(shape, input, isEmail).Aborted?
        <==> exists i :: 0 <= i < |shape| && FieldOutcome(shape[i], input, isEmail).Aborted?
  {
    if |shape| > 0 {
      FieldsAbortedIff(shape[1..], input, isEmail);
      assert forall i :: 1 <= i < |shape| ==> shape[i] == shape[1..][i - 1];
    }
  }

  /** The merged parse is valid exactly when every field's parse is. */
  lemma {:induction false} FieldsValidIff(shape: seq<Field>, input: Value, isEmail: string -> bool)
    ensures FieldsOutcome(shape, input, isEmail).Valid?
        <==> forall i :: 0 <= i < |shape| ==> FieldOutcome(shape[i], input, isEmail).Valid?
  {
    if |shape| > 0 {
      FieldsValidIff(shape[1..], input, isEmail);
      assert forall i :: 1 <= i < |shape| ==> shape[i] == shape[1..][i - 1];
      var head := FieldOutcome(shape[0], input, isEmail);
      assert head.WellFormed();
    }
  }

  /** Unless aborted, the merged value holds exactly the shape's keys, each
      mapped to its field's parsed string; other properties are dropped. */
  lemma {:induction false} FieldsValue(shape: seq<Field>, input: Value, isEmail: string -> bool)
    requires KeysDistinct(shape)
    requires !FieldsOutcome(shape, input, isEmail).Aborted?
    ensures FieldsOutcome(shape, input, isEmail).value.Keys == Keys(shape)
    ensures forall i :: 0 <= i < |shape| ==>
      && !FieldOutcome(shape[i], input, isEmail).Aborted?
      && FieldsOutcome(shape, input, isEmail).value[shape[i].0] == Str(FieldOutcome(shape[i], input, isEmail).value)
  {
    if |shape| > 0 {
      TailKeys(shape);
      var head := FieldOutcome(shape[0], input, isEmail);
      var tail := FieldsOutcome(shape[1..], input, isEmail);
      ValueUnfolds(shape, input, isEmail);
      FieldsValue(shape[1..], input, isEmail);
      var value := FieldsOutcome(shape, input, isEmail).value;
      forall i | 0 <= i < |shape|
        ensures !FieldOutcome(shape[i], input, isEmail).Aborted?
        ensures value[shape[i].0] == Str(FieldOutcome(shape[i], input, isEmail).value)
      {
        if i > 0 {
          assert shape[i] == shape[1..][i - 1];
          assert shape[i].0 in Keys(shape[1..]);
        }
      }
    }
  }

  /** One merge step of a parse that is not aborted. */
  lemma ValueUnfolds(shape: seq<Field>, input: Value, isEmail: string -> bool)
    requires |shape| > 0
    requires !FieldsOutcome(shape, input, isEmail).Aborted?
    ensures !FieldOutcome(shape[0], input, isEmail).Aborted?
    ensures !FieldsOutcome(shape[1..], input, isEmail).Aborted?
    ensures FieldsOutcome(shape, input, isEmail).value
         == FieldsOutcome(shape[1..], input, isEmail).value[shape[0].0 := Str(FieldOutcome(shape[0], input, isEmail).value)]
  {
  }

  /** The merged issues are the first field's issues, under its key,
      followed by the other fields' merged issues. */
  lemma ReportedUnfolds(shape: seq<Field>, input: Value, isEmail: string -> bool)
    requires |shape| > 0
    ensures FieldsOutcome(shape, input, isEmail).Reported()
         == UnderKey(shape[0].0, FieldOutcome(shape[0], input, isEmail).Reported())
            + FieldsOutcome(shape[1..], input, isEmail).Reported()
  {
  }

  /** Every issue of every field appears in the merged issues, under the
      field's key. */
  lemma {:induction false} FieldsCollect(shape: seq<Field>, input: Value, isEmail: string -> bool, i: int, j: int)
    requires 0 <= i < |shape| && 0 <= j < |FieldOutcome(shape[i], input, isEmail).Reported()|
    ensures Issue([shape[i].0] + FieldOutcome(shape[i], input, isEmail).Reported()[j].path,
                  FieldOutcome(shape[i], input, isEmail).Reported()[j].message)
            in FieldsOutcome(shape, input, isEmail).Reported()
  {
    ReportedUnfolds(shape, input, isEmail);
    var mine := UnderKey(shape[0].0, FieldOutcome(shape[0], input, isEmail).Reported());
    if i == 0 {
      assert mine[j] in mine;
    } else {
      assert shape[1..][i - 1] == shape[i];
      FieldsCollect(shape[1..], input, isEmail, i - 1, j);
    }
  }

  /** Every merged issue sits under one of the shape's keys. */
  lemma {:induction false} FieldsIssuesUnderKeys(shape: seq<Field>, input: Value, isEmail: string -> bool)
    ensures forall issue :: issue in FieldsOutcome(shape, input, isEmail).Reported() ==>
      |issue.path| > 0 && issue.path[0] in Keys(shape)
  {
    if |shape| > 0 {
      TailKeys(shape);
      FieldsIssuesUnderKeys(shape[1..], input, isEmail);
      ReportedUnfolds(shape, input, isEmail);
      var mine := UnderKey(shape[0].0, FieldOutcome(shape[0], input, isEmail).Reported());
      forall issue | issue in mine ensures |issue.path| > 0 && issue.path[0] == shape[0].0 {
        var j :| 0 <= j < |mine| && mine[j] == issue;
      }
    }
  }

  /** Each field's issues, moved under its key, in shape order. */
  function PerField(shape: seq<Field>, input: Value, isEmail: string -> bool): seq<seq<Issue>> {
    seq(|shape|, i requires 0 <= i < |shape| => UnderKey(shape[i].0, FieldOutcome(shape[i], input, isEmail).Reported()))
  }

  /** The merged issues are exactly each field's own issues, once each,
      under its key, field after field in shape order. */
  lemma {:induction false} FieldsIssuesExactly(shape: seq<Field>, input: Value, isEmail: string -> bool)
    ensures FieldsOutcome(shape, input, isEmail).Reported() == Flatten(PerField(shape, input, isEmail))
  {
    if |shape| > 0 {
      FieldsIssuesExactly(shape[1..], input, isEmail);
      ReportedUnfolds(shape, input, isEmail);
      assert PerField(shape, input, isEmail)[1..] == PerField(shape[1..], input, isEmail);
    }
  }

  /** `z.object(shape)` before deciding whether to throw: anything but an
      object is rejected as a whole, with no field parsed. */
  function ParseOutcome(shape: seq<Field>, input: Value, isEmail: string -> bool): (o: Outcome<Value>)
    ensures o.WellFormed()
  {
    if !input.Obj? then Aborted([Issue([], InvalidTypeMessage("object", input))])
    else
      match FieldsOutcome(shape, input, isEmail)
      case Valid(fields) => Valid(Obj(fields))
      case Dirty(fields, issues) => Dirty(Obj(fields), issues)
      case Aborted(issues) => Aborted(issues)
  }

  /** `z.object(shape).parse(input)`. */
  function Parse(shape: seq<Field>, input: Value, isEmail: string -> bool): (r: Result<Value>)
    ensures r.Err? ==> |r.issues| > 0
    ensures !input.Obj? ==> r == Err([Issue([], InvalidTypeMessage("object", input))])
  {
    ToResult(ParseOutcome(shape, input, isEmail))
  }

  /** An object parses exactly when every field does, and the result holds
      precisely the shape's keys, each mapped to its field's parsed string. */
  lemma ParseAccepts(shape: seq<Field>, input: Value, isEmail: string -> bool)
    requires KeysDistinct(shape)
    ensures Parse(shape, input, isEmail).Ok?
        <==> input.Obj? && forall i :: 0 <= i < |shape| ==> FieldOutcome(shape[i], input, isEmail).Valid?
    ensures Parse(shape, input, isEmail).Ok? ==>
      && Parse(shape, input, isEmail).value.Obj?
      && Parse(shape, input, isEmail).value.fields.Keys == Keys(shape)
      && forall i :: 0 <= i < |shape| ==>
           Parse(shape, input, isEmail).value.fields[shape[i].0] == Str(FieldOutcome(shape[i], input, isEmail).value)
  {
    FieldsValidIff(shape, input, isEmail);
    if input.Obj? && FieldsOutcome(shape, input, isEmail).Valid? {
      FieldsValue(shape, input, isEmail);
    }
  }

  /** Validation does not stop at the first failing field: every issue of
      every field is reported, under that field's key. */
  lemma FieldIssuesCollected(shape: seq<Field>, input: Value, isEmail: string -> bool, i: int, j: int)
    requires input.Obj?
    requires 0 <= i < |shape| && 0 <= j < |FieldOutcome(shape[i], input, isEmail).Reported()|
    ensures Parse(shape, input, isEmail).Err?
    ensures Issue([shape[i].0] + FieldOutcome(shape[i], input, isEmail).Reported()[j].path,
                  FieldOutcome(shape[i], input, isEmail).Reported()[j].message)
            in Parse(shape, input, isEmail).issues
  {
    FieldsCollect(shape, input, isEmail, i, j);
  }

  /** Conversely, for an object input the thrown issues are exactly the
      fields' own issues, each under its field's key, in shape order: every
      issue comes from some field, and none is added or repeated. */
  lemma IssuesBelongToFields(shape: seq<Field>, input: Value, isEmail: string -> bool)
    requires input.Obj?
    ensures Parse(shape, input, isEmail).Err? ==>
      Parse(shape, input, isEmail).issues == Flatten(PerField(shape, input, isEmail))
    ensures Parse(shape, input, isEmail).Err? ==>
      forall issue :: issue in Parse(shape, input, isEmail).issues ==>
        exists i, j :: 0 <= i < |shape| && 0 <= j < |FieldOutcome(shape[i], input, isEmail).Reported()|
          && issue == Issue([shape[i].0] + FieldOutcome(shape[i], input, isEmail).Reported()[j].path,
                            FieldOutcome(shape[i], input, isEmail).Reported()[j].message)
    ensures Parse(shape, input, isEmail).Err? ==>
      forall issue :: issue in Parse(shape, input, isEmail).issues ==>
        |issue.path| > 0 && issue.path[0] in Keys(shape)
  {
    FieldsIssuesUnderKeys(shape, input, isEmail);
    FieldsIssuesExactly(shape, input, isEmail);
    var per := PerField(shape, input, isEmail);
    forall issue | issue in Flatten(per)
      ensures
        exists i, j :: 0 <= i < |shape| && 0 <= j < |FieldOutcome(shape[i], input, isEmail).Reported()|
          && issue == Issue([shape[i].0] + FieldOutcome(shape[i], input, isEmail).Reported()[j].path,
                            FieldOutcome(shape[i], input, isEmail).Reported()[j].message)
    {
      FlattenMember(per, issue);
      var i, j :| 0 <= i < |per| && 0 <= j < |per[i]| && per[i][j] == issue;
      assert 0 <= j < |FieldOutcome(shape[i], input, isEmail).Reported()|;
    }
  }

  /** A parse is aborted, and so stops any refinement on top of it, exactly
      when the input is not an object or some property is not a string. */
  lemma AbortedIff(shape: seq<Field>, input: Value, isEmail: string -> bool)
    ensures ParseOutcome(shape, input, isEmail).Aborted?
        <==> !input.Obj? || exists i :: 0 <= i < |shape| && !Property(input, shape[i].0).Str?
  {
    FieldsAbortedIff(shape, input, isEmail);
  }
}

=== FILE: schema_cases.dfy ===
/** The concrete inputs the schemas are expected to accept or reject, each
    derived from the general rules. The email pattern stays a parameter: a
    case that depends on it states what it assumes of the pattern. */
module SchemaCases {
  import JsString
  import opened Values
  import opened StringSchemas
  import ObjectSchemas
  import opened CommonSchemas

  /** `c.repeat(n)`. */
  function Repeat(c: char, n: nat): (r: string)
    ensures |r| == n
    ensures forall i :: 0 <= i < n ==> r[i] == c
  {
    if n == 0 then [] else [c] + Repeat(c, n - 1)
  }

  /** A string of one repeated character with no white space in it has
      nothing for trim to remove. */
  lemma RepeatUntrimmed(c: char, n: nat)
    requires !JsString.IsWhiteSpace(c)
    ensures JsString.NoOuterWhiteSpace(Repeat(c, n))
    ensures JsString.Trim(Repeat(c, n)) == Repeat(c, n)
  {
    JsString.TrimFixedPoints(Repeat(c, n));
  }

  /** A present string with nothing to trim, such as `test`, is accepted
      as it is. */
  lemma RequiredWordCase(word: string, isEmail: string -> bool)
    requires |word| > 0 && JsString.NoOuterWhiteSpace(word)
    ensures Parse(RequiredString, Str(word), isEmail) == Ok(word)
  {
    JsString.TrimFixedPoints(word);
    RequiredStringRule(Str(word), isEmail);
  }

  /** An empty or blank string, such as `"   "`, is reported as missing. */
  lemma RequiredBlankCase(blank: string, isEmail: string -> bool)
    requires JsString.AllWhiteSpace(blank)
    ensures Parse(RequiredString, Str(blank), isEmail) == Err([Issue([], RequiredMessage)])
  {
    RequiredStringRule(Str(blank), isEmail);
  }

  /** `null`, `undefined` and a number fail the type test with zod's own
      messages, whatever the checks. */
  lemma NonStringCases(schema: StringSchema, isEmail: string -> bool)
    ensures Parse(schema, Null, isEmail) == Err([Issue([], "Expected string, received null")])
    ensures Parse(schema, Undefined, isEmail) == Err([Issue([], "Required")])
    ensures Parse(schema, Number(123), isEmail) == Err([Issue([], "Expected string, received number")])
  {
    assert "Expected " + "string" + ", received " + "null" == "Expected string, received null";
    assert "Expected " + "string" + ", received " + "number" == "Expected string, received number";
  }

  /** Passwords with nothing to trim, such as `password123` or `1234567`:
      8 to 100 characters pass unchanged, fewer are too short, more too
      long, each with its one message. */
  lemma PasswordCases(password: string, isEmail: string -> bool)
    requires |password| > 0 && JsString.NoOuterWhiteSpace(password)
    ensures 8 <= |password| <= 100 ==> Parse(PasswordSchema, Str(password), isEmail) == Ok(password)
    ensures |password| < 8 ==> Parse(PasswordSchema, Str(password), isEmail) == Err([Issue([], PasswordTooShortMessage)])
    ensures |password| > 100 ==> Parse(PasswordSchema, Str(password), isEmail) == Err([Issue([], PasswordTooLongMessage)])
  {
    JsString.TrimFixedPoints(password);
    PasswordRule(Str(password), isEmail);
  }

  /** The empty password fails both minimums, so it gets both messages. */
  lemma EmptyPasswordCase(isEmail: string -> bool)
    ensures Parse(PasswordSchema, Str([]), isEmail)
         == Err([Issue([], RequiredMessage), Issue([], PasswordTooShortMessage)])
  {
    PasswordRule(Str([]), isEmail);
  }

  /** A run of `n` copies of one non-white character, such as
      `'a'.repeat(100)` or `'a'.repeat(101)`, is a valid password exactly
      when 8 <= n <= 100. */
  lemma PasswordRunCases(c: char, n: nat, isEmail: string -> bool)
    requires !JsString.IsWhiteSpace(c)
    ensures Parse(PasswordSchema, Str(Repeat(c, n)), isEmail).Ok? <==> 8 <= n <= 100
  {
    RepeatUntrimmed(c, n);
    PasswordRule(Str(Repeat(c, n)), isEmail);
  }

  /** Names with nothing to trim, such as `田中太郎` or `John Doe`: 1 to 50
      characters pass unchanged, more are too long. */
  lemma NameCases(name: string, isEmail: string -> bool)
    requires |name| > 0 && JsString.NoOuterWhiteSpace(name)
    ensures |name| <= 50 ==> Parse(NameSchema, Str(name), isEmail) == Ok(name)
    ensures |name| > 50 ==> Parse(NameSchema, Str(name), isEmail) == Err([Issue([], NameTooLongMessage)])
  {
    if |name| <= 50 {
      NameWithinBound(name, isEmail);
    } else {
      NameOverBound(name, isEmail);
    }
  }

  lemma NameWithinBound(name: string, isEmail: string -> bool)
    requires 0 < |name| <= 50 && JsString.NoOuterWhiteSpace(name)
    ensures Parse(NameSchema, Str(name), isEmail) == Ok(name)
  {
    JsString.TrimFixedPoints(name);
    NameRule(Str(name), isEmail);
  }

  lemma NameOverBound(name: string, isEmail: string -> bool)
    requires |name| > 50 && JsString.NoOuterWhiteSpace(name)
    ensures Parse(NameSchema, Str(name), isEmail) == Err([Issue([], NameTooLongMessage)])
  {
    JsString.TrimFixedPoints(name);
    NameRule(Str(name), isEmail);
  }

  /** The empty name is reported as missing, and only as missing. */
  lemma EmptyNameCase(isEmail: string -> bool)
    ensures Parse(NameSchema, Str([]), isEmail) == Err([Issue([], RequiredMessage)])
  {
    NameRule(Str([]), isEmail);
  }

  /** A run of `n` copies of one non-white character, such as
      `'あ'.repeat(50)` or `'あ'.repeat(51)`, is a valid name exactly when
      1 <= n <= 50. */
  lemma NameRunCases(c: char, n: nat, isEmail: string -> bool)
    requires !JsString.IsWhiteSpace(c)
    ensures Parse(NameSchema, Str(Repeat(c, n)), isEmail).Ok? <==> 1 <= n <= 50
  {
    RepeatUntrimmed(c, n);
    NameRule(Str(Repeat(c, n)), isEmail);
  }

  /** An address of more than 100 characters, such as `'a'.repeat(90)`
      followed by `@example.com` (102 characters), is reported as too long
      whatever the pattern says of it. */
  lemma EmailTooLongCase(address: string, isEmail: string -> bool)
    requires JsString.NoOuterWhiteSpace(address) && |address| > 100
    ensures Parse(EmailSchema, Str(address), isEmail).Err?
    ensures Issue([], EmailTooLongMessage) in Parse(EmailSchema, Str(address), isEmail).issues
  {
    JsString.TrimFixedPoints(address);
    EmailRule(Str(address), isEmail);
  }

  /** An address of at most 100 characters with nothing to trim comes back
      unchanged when the pattern accepts it, and is reported with the
      invalid-address message alone when the pattern rejects it. */
  lemma EmailShapeCases(address: string, isEmail: string -> bool)
    requires |address| > 0 && JsString.NoOuterWhiteSpace(address) && |address| <= 100
    ensures isEmail(address) ==> Parse(EmailSchema, Str(address), isEmail) == Ok(address)
    ensures !isEmail(address) ==> Parse(EmailSchema, Str(address), isEmail) == Err([Issue([], EmailInvalidMessage)])
  {
    JsString.TrimFixedPoints(address);
    EmailRule(Str(address), isEmail);
  }

  /** The empty string is both missing and, for a pattern that rejects it,
      not an address. */
  lemma EmptyEmailCase(isEmail: string -> bool)
    requires !isEmail([])
    ensures Parse(EmailSchema, Str([]), isEmail) == Err([Issue([], RequiredMessage), Issue([], EmailInvalidMessage)])
  {
    EmailRule(Str([]), isEmail);
  }

  /** zod's own message for `z.string().email()` without a custom one. */
  const DefaultEmailMessage := "Invalid email"

  /** `z.object({ password: z.string(), confirmPassword: z.string(), email: z.string().email() })`. */
  const ConfirmationShape: seq<ObjectSchemas.Field> := [
    ("password", StringSchema([])),
    ("confirmPassword", StringSchema([])),
    ("email", StringSchema([Email(DefaultEmailMessage)]))
  ]

  function Form(password: string, confirmPassword: string, email: string): Value {
    Obj(map["password" := Str(password), "confirmPassword" := Str(confirmPassword), "email" := Str(email)])
  }

  /** Plain string fields parse to themselves; the email field parses to itself
      and reports the default message exactly when the pattern rejects it. */
  lemma FormFields(password: string, confirmPassword: string, email: string, isEmail: string -> bool)
    ensures ObjectSchemas.KeysDistinct(ConfirmationShape)
    ensures ObjectSchemas.Keys(ConfirmationShape) == {"password", "confirmPassword", "email"}
    ensures ObjectSchemas.FieldOutcome(ConfirmationShape[0], Form(password, confirmPassword, email), isEmail) == Valid(password)
    ensures ObjectSchemas.FieldOutcome(ConfirmationShape[1], Form(password, confirmPassword, email), isEmail) == Valid(confirmPassword)
    ensures ObjectSchemas.FieldOutcome(ConfirmationShape[2], Form(password, confirmPassword, email), isEmail)
         == if isEmail(email) then Valid(email) else Dirty(email, [Issue([], DefaultEmailMessage)])
  {
    var keys := ObjectSchemas.Keys(ConfirmationShape);
    assert ConfirmationShape[0].0 in keys && ConfirmationShape[1].0 in keys && ConfirmationShape[2].0 in keys;
    RunTrimFree([], password, isEmail);
    RunTrimFree([], confirmPassword, isEmail);
    RunTrimFree([Email(DefaultEmailMessage)], email, isEmail);
    FailedChecksUnrolled([Email(DefaultEmailMessage)], email, isEmail);
  }

  /** Matching passwords and an accepted address: the form comes back as it was. */
  lemma MatchingConfirmationAccepted(password: string, email: string, isEmail: string -> bool)
    requires isEmail(email)
    ensures ParseConfirmed(ConfirmationShape, Form(password, password, email), isEmail)
         == Ok(Form(password, password, email))
  {
    var input := Form(password, password, email);
    FormFields(password, password, email, isEmail);
    ObjectSchemas.ParseAccepts(ConfirmationShape, input, isEmail);
    ConfirmedAccepts(ConfirmationShape, input, isEmail);
    var v := ObjectSchemas.Parse(ConfirmationShape, input, isEmail).value;
    assert v.fields["password"] == Str(password) by {
      assert ConfirmationShape[0].0 == "password";
    }
    assert v.fields["confirmPassword"] == Str(password) by {
      assert ConfirmationShape[1].0 == "confirmPassword";
    }
    assert v.fields["email"] == Str(email) by {
      assert ConfirmationShape[2].0 == "email";
    }
    assert v.fields == input.fields;
  }

  /** Different passwords and an accepted address: exactly one issue, at
      the confirmation field, with the mismatch message. */
  lemma MismatchReportedAlone(password: string, confirmPassword: string, email: string, isEmail: string -> bool)
    requires password != confirmPassword
    requires isEmail(email)
    ensures ParseConfirmed(ConfirmationShape, Form(password, confirmPassword, email), isEmail)
         == Err([Issue(["confirmPassword"], MismatchMessage)])
  {
    var input := Form(password, confirmPassword, email);
    FormFields(password, confirmPassword, email, isEmail);
    ObjectSchemas.ParseAccepts(ConfirmationShape, input, isEmail);
    var v := ObjectSchemas.Parse(ConfirmationShape, input, isEmail).value;
    assert v.fields[ConfirmationShape[0].0] == Str(password);
    assert v.fields[ConfirmationShape[1].0] == Str(confirmPassword);
    MismatchAlone(ConfirmationShape, input, isEmail);
  }

  /** A rejected address is reported under `email` whether or not the
      passwords match; with different passwords the mismatch is reported
      too, so there is more than one issue. */
  lemma InvalidEmailReported(password: string, confirmPassword: string, email: string, isEmail: string -> bool)
    requires !isEmail(email)
    ensures ParseConfirmed(ConfirmationShape, Form(password, confirmPassword, email), isEmail).Err?
    ensures Issue(["email"], DefaultEmailMessage)
            in ParseConfirmed(ConfirmationShape, Form(password, confirmPassword, email), isEmail).issues
    ensures password != confirmPassword ==>
      && MismatchIssue in ParseConfirmed(ConfirmationShape, Form(password, confirmPassword, email), isEmail).issues
      && |ParseConfirmed(ConfirmationShape, Form(password, confirmPassword, email), isEmail).issues| > 1
  {
    var input := Form(password, confirmPassword, email);
    FormFields(password, confirmPassword, email, isEmail);
    var inner := ObjectSchemas.ParseOutcome(ConfirmationShape, input, isEmail);
    var emailIssue := Issue(["email"], DefaultEmailMessage);
    assert emailIssue in inner.Reported() by {
      ObjectSchemas.FieldIssuesCollected(ConfirmationShape, input, isEmail, 2, 0);
      assert [ConfirmationShape[2].0] + [] == ["email"];
    }
    assert !inner.Aborted? by {
      ObjectSchemas.AbortedIff(ConfirmationShape, input, isEmail);
      assert Property(input, ConfirmationShape[0].0).Str?;
      assert Property(input, ConfirmationShape[1].0).Str?;
      assert Property(input, ConfirmationShape[2].0).Str?;
    }
    ConfirmedIssues(ConfirmationShape, input, isEmail);
    var refined := RefinePasswordConfirmation(inner);
    assert refined.Reported() == ParseConfirmed(ConfirmationShape, input, isEmail).issues;
    if password != confirmPassword {
      ObjectSchemas.FieldsValue(ConfirmationShape, input, isEmail);
      assert inner.value.fields[ConfirmationShape[0].0] == Str(password);
      assert inner.value.fields[ConfirmationShape[1].0] == Str(confirmPassword);
      assert refined.Reported() == inner.Reported() + [MismatchIssue];
    }
  }
}

=== FILE: string_schemas.dfy ===
/** zod's string schema: a type test followed by a chain of checks that run in
    order. `trim` rewrites the value; `min`, `max` and `email` each report an
    issue when they fail, and the checks after a failing one still run. */
module StringSchemas {
  import JsString
  import opened Values

  datatype Check =
    | TrimCheck
    | Min(bound: nat, message: string)
    | Max(bound: nat, message: string)
    | Email(message: string)

  /** `z.string()` followed by the checks its chain added, in order. */
  datatype StringSchema = StringSchema(checks: seq<Check>)
  {
    /** Chaining a check method adds one check at the end. */
    function Then(c: Check): (r: StringSchema)
      ensures |r.checks| == |checks| + 1
      ensures r.checks[..|checks|] == checks && r.checks[|checks|] == c
    {
      StringSchema(checks + [c])
    }
  }

  /** Whether check `c` accepts the current value `t`; `trim` never fails.
      `isEmail` is zod's email pattern, which is not part of this model. */
  predicate Passes(c: Check, t: string, isEmail: string -> bool) {
    match c
    case TrimCheck => true
    case Min(n, _) => |t| >= n
    case Max(n, _) => |t| <= n
    case Email(_) => isEmail(t)
  }

  predicate TrimFree(checks: seq<Check>) {
    forall i :: 0 <= i < |checks| ==> !checks[i].TrimCheck?
  }

  /** One issue at the value itself when `failed` holds, none otherwise. */
  function IssueWhen(failed: bool, message: string): seq<Issue> {
    if failed then [Issue([], message)] else []
  }

  /** The issue check `c` reports against the current value `t`, if any:
      at the value itself, with the check's own message. */
  function CheckIssue(c: Check, t: string, isEmail: string -> bool): (r: seq<Issue>)
    ensures r == [] <==> Passes(c, t, isEmail)
  {
    match c
    case TrimCheck => []
    case Min(n, message) => IssueWhen(|t| < n, message)
    case Max(n, message) => IssueWhen(|t| > n, message)
    case Email(message) => IssueWhen(!isEmail(t), message)
  }

  /** The value after the checks ran, and the issues of the checks that failed. */
  datatype CheckRun = CheckRun(value: string, issues: seq<Issue>)

  /** Runs the checks in order on `s`, threading the value through `trim`. */
  function RunChecks(checks: seq<Check>, s: string, isEmail: string -> bool): CheckRun
  {
    if |checks| == 0 then CheckRun(s, [])
    else
      var next := if checks[0].TrimCheck? then JsString.Trim(s) else s;
      var rest := RunChecks(checks[1..], next, isEmail);
      CheckRun(rest.value, CheckIssue(checks[0], s, isEmail) + rest.issues)
  }

  /** The issues of the checks that reject one fixed value `t`, in chain
      order: what a chain reports once nothing rewrites the value any more. */
  function FailedChecks(checks: seq<Check>, t: string, isEmail: string -> bool): (r: seq<Issue>)
    ensures |r| <= |checks|
    ensures r == [] <==> forall i :: 0 <= i < |checks| ==> Passes(checks[i], t, isEmail)
    ensures forall i :: 0 <= i < |r| ==> r[i].path == []
  {
    if |checks| == 0 then []
    else
      var rest := FailedChecks(checks[1..], t, isEmail);
      assert forall i :: 1 <= i < |checks| ==> checks[i] == checks[1..][i - 1];
      CheckIssue(checks[0], t, isEmail) + rest
  }

  /** A chain without `trim` leaves the value alone and reports exactly the
      checks that reject it. */
  lemma {:induction false} RunTrimFree(checks: seq<Check>, s: string, isEmail: string -> bool)
    requires TrimFree(checks)
    ensures RunChecks(checks, s, isEmail) == CheckRun(s, FailedChecks(checks, s, isEmail))
  {
    if |checks| > 0 {
      assert TrimFree(checks[1..]) by {
        assert forall i :: 0 <= i < |checks| - 1 ==> checks[1..][i] == checks[i + 1];
      }
      RunTrimFree(checks[1..], s, isEmail);
    }
  }

  /** The shape of every schema in the common set: trim first, then checks
      that only inspect the trimmed value. */
  predicate TrimsFirst(schema: StringSchema) {
    |schema.checks| > 0 && schema.checks[0].TrimCheck? && TrimFree(schema.checks[1..])
  }

  /** Parses `input` without deciding yet whether to throw. */
  function ParseOutcome(schema: StringSchema, input: Value, isEmail: string -> bool): (o: Outcome<string>)
    ensures o.WellFormed()
    ensures o.Aborted? <==> !input.Str?
    ensures o.Aborted? ==> o.issues == [Issue([], InvalidTypeMessage("string", input))]
  {
    if !input.Str? then
      Aborted([Issue([], InvalidTypeMessage("string", input))])
    else
      var run := RunChecks(schema.checks, input.s, isEmail);
      if |run.issues| == 0 then Valid(run.value) else Dirty(run.value, run.issues)
  }

  /** `schema.parse(input)`: the parsed string, or the issues of a ZodError. */
  function Parse(schema: StringSchema, input: Value, isEmail: string -> bool): (r: Result<string>)
    ensures r.Err? ==> |r.issues| > 0
    ensures !input.Str? ==> r == Err([Issue([], InvalidTypeMessage("string", input))])
  {
    ToResult(ParseOutcome(schema, input, isEmail))
  }

  /** For a trim-first schema and a string input: the value is the trimmed
      string, and the issues are those of exactly the checks that reject the
      trimmed string, in chain order, each at the value itself. */
  lemma {:induction false} TrimsFirstOutcome(schema: StringSchema, s: string, isEmail: string -> bool)
    requires TrimsFirst(schema)
    ensures !ParseOutcome(schema, Str(s), isEmail).Aborted?
    ensures ParseOutcome(schema, Str(s), isEmail).value == JsString.Trim(s)
    ensures ParseOutcome(schema, Str(s), isEmail).Reported()
         == FailedChecks(schema.checks[1..], JsString.Trim(s), isEmail)
  {
    var t := JsString.Trim(s);
    var rest := schema.checks[1..];
    RunTrimFree(rest, t, isEmail);
    assert CheckIssue(schema.checks[0], s, isEmail) == [];
    var run := RunChecks(schema.checks, s, isEmail);
    assert run == CheckRun(t, FailedChecks(rest, t, isEmail));
  }

  /** A trim-first schema accepts a string exactly when every check accepts
      its trimmed form, and then returns the trimmed form. */
  lemma TrimsFirstAccepts(schema: StringSchema, s: string, isEmail: string -> bool)
    requires TrimsFirst(schema)
    ensures Parse(schema, Str(s), isEmail).Ok?
        <==> forall i :: 0 <= i < |schema.checks| ==> Passes(schema.checks[i], JsString.Trim(s), isEmail)
    ensures Parse(schema, Str(s), isEmail).Ok? ==> Parse(schema, Str(s), isEmail).value == JsString.Trim(s)
  {
    TrimsFirstOutcome(schema, s, isEmail);
    OkIffNothingReported(schema, Str(s), isEmail);
    PassesAfterTrim(schema.checks, JsString.Trim(s), isEmail);
  }

  /** `trim` accepts everything, so a chain starting with it accepts a value
      exactly when the checks after it do. */
  lemma PassesAfterTrim(checks: seq<Check>, t: string, isEmail: string -> bool)
    requires |checks| > 0 && checks[0].TrimCheck?
    ensures (forall i :: 0 <= i < |checks| ==> Passes(checks[i], t, isEmail))
        <==> FailedChecks(checks[1..], t, isEmail) == []
  {
    assert forall i :: 1 <= i < |checks| ==> checks[i] == checks[1..][i - 1];
  }

  /** FailedChecks on a chain of up to three checks, written out. */
  lemma FailedChecksUnrolled(checks: seq<Check>, t: string, isEmail: string -> bool)
    requires 1 <= |checks| <= 3
    ensures FailedChecks(checks, t, isEmail)
         == CheckIssue(checks[0], t, isEmail)
          + (if |checks| > 1 then CheckIssue(checks[1], t, isEmail) else [])
          + (if |checks| > 2 then CheckIssue(checks[2], t, isEmail) else [])
  {
    if |checks| > 1 {
      assert checks[1..][0] == checks[1];
      if |checks| > 2 {
        assert checks[1..][1..][0] == checks[2];
        assert checks[1..][1..][1..] == [];
      } else {
        assert checks[1..][1..] == [];
      }
    } else {
      assert checks[1..] == [];
    }
  }

  /** A chain of `trim` and up to three further checks, stated per check:
      a string input ends on its trimmed form, each check that rejects the
      trimmed form adds its own issue, and the parse succeeds when none does. */
  lemma TrimChain(schema: StringSchema, rest: seq<Check>, input: Value, isEmail: string -> bool)
    requires schema.checks == [TrimCheck] + rest && TrimFree(rest) && 1 <= |rest| <= 3
    ensures input.Str? ==>
      var t := JsString.Trim(input.s);
      && ParseOutcome(schema, input, isEmail).Reported()
         == CheckIssue(rest[0], t, isEmail)
          + (if |rest| > 1 then CheckIssue(rest[1], t, isEmail) else [])
          + (if |rest| > 2 then CheckIssue(rest[2], t, isEmail) else [])
      && (Parse(schema, input, isEmail).Ok? ==> Parse(schema, input, isEmail).value == t)
    ensures Parse(schema, input, isEmail).Ok? <==> input.Str? && ParseOutcome(schema, input, isEmail).Reported() == []
  {
    OkIffNothingReported(schema, input, isEmail);
    if input.Str? {
      assert schema.checks[1..] == rest;
      TrimsFirstOutcome(schema, input.s, isEmail);
      FailedChecksUnrolled(rest, JsString.Trim(input.s), isEmail);
    }
  }

  /** A parse succeeds exactly when it reported nothing. */
  lemma OkIffNothingReported(schema: StringSchema, input: Value, isEmail: string -> bool)
    ensures Parse(schema, input, isEmail).Ok? <==> ParseOutcome(schema, input, isEmail).Reported() == []
    ensures Parse(schema, input, isEmail).Ok? ==>
      Parse(schema, input, isEmail).value == ParseOutcome(schema, input, isEmail).value
  {
  }

  /** A trim-first schema only sees the trimmed string: surrounding white
      space changes neither the value nor the issues. */
  lemma TrimInvariant(schema: StringSchema, s: string, isEmail: string -> bool)
    requires TrimsFirst(schema)
    ensures Parse(schema, Str(s), isEmail) == Parse(schema, Str(JsString.Trim(s)), isEmail)
  {
    JsString.TrimIdempotent(s);
    TrimsFirstOutcome(schema, s, isEmail);
    TrimsFirstOutcome(schema, JsString.Trim(s), isEmail);
  }

  /** Parsing an accepted value again accepts it unchanged. */
  lemma ParseIdempotent(schema: StringSchema, s: string, isEmail: string -> bool)
    requires TrimsFirst(schema)
    ensures Parse(schema, Str(s), isEmail).Ok? ==>
      Parse(schema, Str(Parse(schema, Str(s), isEmail).value), isEmail) == Parse(schema, Str(s), isEmail)
  {
    TrimsFirstOutcome(schema, s, isEmail);
    TrimInvariant(schema, s, isEmail);
  }

  /** An accepted string with no white space at either end comes back as it was. */
  lemma AcceptedUntrimmedIsIdentity(schema: StringSchema, s: string, isEmail: string -> bool)
    requires TrimsFirst(schema)
    requires JsString.NoOuterWhiteSpace(s)
    requires Parse(schema, Str(s), isEmail).Ok?
    ensures Parse(schema, Str(s), isEmail).value == s
  {
    TrimsFirstOutcome(schema, s, isEmail);
    JsString.TrimFixedPoints(s);
  }
}

=== FILE: values.dfy ===
/** The JavaScript values a form schema can be handed, and the issue lists
    that a failed parse reports. */
module Values {

  /** An input value, as far as its parsed type is concerned. Numbers are
      integers here; only their type matters to the string and object schemas. */
  datatype Value =
    | Undefined
    | Null
    | Boolean(b: bool)
    | Number(n: int)
    | Str(s: string)
    | Arr(elements: seq<Value>)
    | Obj(fields: map<string, Value>)

  /** The name zod gives the parsed type of a value in its messages. */
  function TypeName(v: Value): string {
    match v
    case Undefined => "undefined"
    case Null => "null"
    case Boolean(_) => "boolean"
    case Number(_) => "number"
    case Str(_) => "string"
    case Arr(_) => "array"
    case Obj(_) => "object"
  }

  /** A JavaScript property read `v[key]`: a missing property reads as undefined. */
  function Property(v: Value, key: string): Value {
    if v.Obj? && key in v.fields then v.fields[key] else Undefined
  }

  /** One reported problem: the path of keys leading to the offending field
      (empty for the value itself) and a human-readable message. */
  datatype Issue = Issue(path: seq<string>, message: string)

  /** The state a parse ends in. A valid value; a value that failed some
      checks but whose later checks still ran; or an aborted parse, which
      has no value and stops any refinement layered on top of it. */
  datatype Outcome<+T> =
    | Valid(value: T)
    | Dirty(value: T, issues: seq<Issue>)
    | Aborted(issues: seq<Issue>)
  {
    /** The issues reported so far; none for a valid value. */
    function Reported(): seq<Issue> {
      if Valid? then [] else issues
    }

    /** Every failing state carries at least one issue. */
    predicate WellFormed() {
      Valid? || |issues| > 0
    }
  }

  /** What `parse` returns, or throws as a ZodError. */
  datatype Result<+T> = Ok(value: T) | Err(issues: seq<Issue>)

  /** `parse` returns the value of a valid outcome and throws the issues of
      any other. */
  function ToResult<T>(o: Outcome<T>): (r: Result<T>)
    ensures r.Ok? <==> o.Valid?
    ensures r.Ok? ==> r.value == o.value
    ensures r.Err? ==> r.issues == o.Reported()
  {
    match o
    case Valid(v) => Ok(v)
    case Dirty(_, issues) => Err(issues)
    case Aborted(issues) => Err(issues)
  }

  /** zod's default message for a value of the wrong type: a missing value
      is "Required", anything else is named by its type. */
  function InvalidTypeMessage(expected: string, received: Value): (r: string)
    ensures r == "Required" <==> received.Undefined?
    ensures !received.Undefined? ==>
      && |r| >= 9 + |TypeName(received)|
      && r[..9] == "Expected "
      && r[|r| - |TypeName(received)|..] == TypeName(received)
  {
    if received.Undefined? then "Required"
    else
      var r := "Expected " + expected + ", received " + TypeName(received);
      assert r[0] == 'E';
      r
  }

  /** The lists of `xss` one after another, in order. */
  function Flatten<T>(xss: seq<seq<T>>): seq<T> {
    if |xss| == 0 then [] else xss[0] + Flatten(xss[1..])
  }

  /** An element of a flattened list is an element of one of the lists. */
  lemma {:induction false} FlattenMember<T>(xss: seq<seq<T>>, x: T)
    ensures x in Flatten(xss) <==> exists i, j :: 0 <= i < |xss| && 0 <= j < |xss[i]| && xss[i][j] == x
  {
    if |xss| > 0 {
      FlattenMember(xss[1..], x);
      if x in Flatten(xss) && x !in xss[0] {
        var i, j :| 0 <= i < |xss[1..]| && 0 <= j < |xss[1..][i]| && xss[1..][i][j] == x;
        assert xss[i + 1][j] == x;
      }
      if exists i, j :: 0 <= i < |xss| && 0 <= j < |xss[i]| && xss[i][j] == x {
        var i, j :| 0 <= i < |xss| && 0 <= j < |xss[i]| && xss[i][j] == x;
        if i == 0 {
          assert x in xss[0];
        } else {
          assert xss[1..][i - 1][j] == x;
        }
      }
    }
  }

  /** The issues of a nested value, moved under the key `key`. */
  function UnderKey(key: string, issues: seq<Issue>): (r: seq<Issue>)
    ensures |r| == |issues|
    ensures forall i :: 0 <= i < |r| ==>
      r[i].path == [key] + issues[i].path && r[i].message == issues[i].message
  {
    seq(|issues|, i requires 0 <= i < |issues| => Issue([key] + issues[i].path, issues[i].message))
  }
}
